=== FILE: README.md ===
# Merriam-Webster lookup, modelled in Dafny

The `MerriamWebsterAPI` client of this command-line dictionary tool does two things:

- **Configuration.** It reads `conf/config.ini` and then `conf/configsecrets.ini`. A value in a later file overrides the same option in an earlier one. Construction then fails with `ValueError` unless section `merriam-webster` holds a non-empty `api_key` and a non-empty `base_url`. The key is checked first.
- **Lookup.** `fetch_definition(word)` works in four steps:
  1. It refuses a word that is not `str.isalpha()` with `ValueError`. This includes the empty word.
  2. It builds the URL `base_url + "/" + word + "?key=" + api_key`.
  3. It sends one GET request, and turns any request failure into the line `Error fetching definition`.
  4. It classifies the decoded JSON body:
     - An empty list, or a list of suggestion strings, gives `Word not found`.
     - A list headed by an entry object gives `word (fl): shortdef[0]`. The defaults are `N/A` and `No definition found`.
     - Anything else gives `Word not found`.

The model is purely functional:

- `wrappers.dfy`: `Option` and `Result`.
- `json.dfy`: the decoded JSON value.
- `python.dfy`: the Python behaviour the code leans on: its exceptions, `v[0]`, `str(v)` inside an f-string, and `str.isalpha`.
- `config.dfy`: layered reading of the INI files and `_load_config`.
- `dictionary.dfy`: `fetch_definition` and its properties.
- `scenarios.dfy`: the test file's cases, and the edge cases, on hand-built bodies.

The network is a parameter `net: string -> Transport`. It maps the request URL to `TransportFailure` or to `Delivered(json)`. "No request is sent" is stated as "the result does not depend on `net`".

Unicode letter classification is a parameter `isAlpha` of `PyRuntime`, and so is `str()` of a list or dict (Python's `repr`). The only thing assumed about `isAlpha` is `Plausible`: on ASCII characters it agrees with the ASCII letters.

How the code treats `shortdef`:

- An empty `shortdef` list does not fall back to `No definition found`: the default applies only when the key is absent (app/merriam_webster.py:117).
- An empty list raises `IndexError`, and nothing catches it: the handler catches only `requests.RequestException`.
- The code also applies `[0]` to whatever `shortdef` holds:
  - a string prints its first character;
  - an object raises `KeyError`;
  - a number, a boolean or null raises `TypeError`.

## Model

| member | source | states |
|---|---|---|
| `Python.Subscript0` | app/merriam_webster.py:117 | `v[0]` succeeds exactly on a non-empty list (its first element) or a non-empty string (its first character). An empty list or string raises `IndexError`, an object raises `KeyError`, and any other value raises `TypeError`. |
| `Python.IsAlphaStr` | app/merriam_webster.py:80 | A word passes `isalpha` exactly when it is non-empty and its leading run of letters is the whole word. |
| `Python.IntToStr` | app/merriam_webster.py:118 | `str()` of an int has a minus sign exactly for negatives, then decimal digits without a leading zero; 0 prints as `0`. |
| `Python.PyStr` | app/merriam_webster.py:118 | In the f-string, a string prints as itself, `null` as `None`, a boolean as `True` or `False`, and an integer as its `str()` form (`IntToStr`), which reads back to it. |
| `Python.IntStrRoundTrip` | app/merriam_webster.py:118 | An integer `fl` or definition is printed in decimal, and that text reads back to the same integer. |
| `Config.ReadAllSections` | app/merriam_webster.py:48 | After all files are read in order, a section exists exactly when some file has it. |
| `Config.Construct` | app/merriam_webster.py:25-28 | The client reads the base file, then the secrets file. Each option takes the secrets value when the secrets file sets it, and the base value otherwise. Construction succeeds exactly when both resulting options are non-empty. A missing or empty key is reported before the URL. |
| `Config.Overlay` | app/merriam_webster.py:48 | After one more file is read, each option has the new file's value if the new file sets it, and otherwise keeps the earlier value. |
| `Config.ReadAllLastWins` | app/merriam_webster.py:48 | After all files are read in order, an option has the value given by the last file that sets it. It is absent when no file sets it. |
| `Config.LoadSettings` | app/merriam_webster.py:50-66 | A missing or empty `api_key` raises the API-key `ValueError`. Otherwise a missing or empty `base_url` raises the base-URL `ValueError`. Loading succeeds exactly when both merged options are non-empty, and the client then holds the merged values. |
| `Config.SecretsOverride` | app/merriam_webster.py:47-66 | The secrets file's `api_key` wins over the base file's. The base file's key is used only when the secrets file sets none. Construction succeeds exactly when both merged options are non-empty. |
| `Dictionary.Classify` | app/merriam_webster.py:105-121 | An empty list, a suggestion list, or any body not headed by an entry object gives `Word not found`. An entry gives `word (fl): def`. `def` is `No definition found` when `shortdef` is absent. Otherwise `def` is what `shortdef[0]` yields (the first element of a list, the first character of a string), and when `shortdef[0]` fails its exception escapes: `IndexError` for an empty list or string, `KeyError` for an object, `TypeError` for a number, boolean or null. An exception escapes exactly in that case, and it is never a `ValueError`. |
| `Dictionary.FetchDefinition` | app/merriam_webster.py:78-124 | A word that fails `isalpha`, including the empty word, raises the alphabetic-only `ValueError`. For a valid word, a failed request gives `Error fetching definition`. A delivered body is classified as above. |
| `Dictionary.RequestUrl` | app/merriam_webster.py:87 | The request URL is the base URL and `/`, then the word, then `?key=` and the API key, with nothing escaped. |
| `Dictionary.Answer` | app/merriam_webster.py:118 | An answer line is the word, ` (`, the part of speech, `): `, then the definition. |
| `Dictionary.UrlRoundTrip` | app/merriam_webster.py:87 | Given the base URL, the request URL for a valid word splits back into exactly the word and the API key. |
| `Dictionary.UrlInjective` | app/merriam_webster.py:87 | For one client, two valid words share a request URL only if they are the same word. |
| `Dictionary.AnswerNamesWord` | app/merriam_webster.py:118 | An answer line begins with the queried word, which is its leading run of letters, followed by ` (`. |
| `Dictionary.AnswerUnambiguous` | app/merriam_webster.py:112-124 | An answer line is never `Word not found` and never `Error fetching definition`: it has a `(` after the word and a space, and neither fixed line has one. |
| `Dictionary.InvalidWordSendsNothing` | app/merriam_webster.py:80-93 | For an invalid word the outcome is the `ValueError`, whatever the network would do. The rejection comes before any request. |
| `Dictionary.OnlyRequestTargetMatters` | app/merriam_webster.py:87-94 | Two networks that treat the request URL alike give the same outcome. The lookup consults the network only at that URL. |
| `Dictionary.FetchErrorIffTransportFailure` | app/merriam_webster.py:78-124 | The line `Error fetching definition` is returned exactly when the word is valid and the request failed. For every body the network delivers, the alphabetic-only `ValueError` escapes exactly when the word is invalid. |
| `Dictionary.ReturnedLines` | app/merriam_webster.py:107-124 | Every returned line is `Word not found`, `Error fetching definition`, or an answer line for the queried word. |
| `Scenarios.KnownWord` | app/merriam_webster_test.py:21-23 | An entry with `fl` = `noun` and one short definition gives `hospital (noun): a charitable institution for the needy, aged, infirm, or young`. |
| `Scenarios.UnknownWord` | app/merriam_webster_test.py:26 | A suggestion list for `nonexistentword` gives `Word not found`. |
| `Scenarios.DigitsRefused` | app/merriam_webster_test.py:29-30 | `12345` raises the alphabetic-only `ValueError`. |
| `Scenarios.EmptyRefused` | app/merriam_webster_test.py:33-34 | The empty word raises the alphabetic-only `ValueError`. |
| `Scenarios.RequestFails` | app/merriam_webster.py:122-124 | A failed request for a valid word returns `Error fetching definition` and raises nothing. |
| `Scenarios.MissingFieldsDefault` | app/merriam_webster.py:116-117 | An entry without `fl` or `shortdef` prints `N/A` and `No definition found`. |
| `Scenarios.EmptyShortdefRaises` | app/merriam_webster.py:117 | An empty `shortdef` list raises `IndexError`. It does not fall back to the default. |
| `Scenarios.StringShortdefFirstCharacter` | app/merriam_webster.py:117 | A `shortdef` string prints only its first character. |
| `Scenarios.NumericPartOfSpeech` | app/merriam_webster.py:116-118 | A numeric `fl` prints in decimal, sign included. |
| `Scenarios.ObjectBodyNotFound` | app/merriam_webster.py:115-121 | A body that is an object rather than a list gives `Word not found`. |
| `Scenarios.SecretsKeyWins` | app/merriam_webster.py:48-61 | With a key in both files, the client uses the secrets file's key and the base file's URL. |
| `Scenarios.EmptyKeyReportedFirst` | app/merriam_webster.py:50-55 | An empty `api_key` raises the API-key `ValueError` even when `base_url` is missing too. |

## Left out

- Logging setup, every `logging` call and the debug `print`s (app/merriam_webster.py:30-43, 103, 139): they are side effects with no bearing on results.
- The HTTP call itself, `requests.get` and `raise_for_status` (app/merriam_webster.py:93-94): the network is the `net` parameter, reduced to failure or a decoded body.
- A body whose decoding raises (app/merriam_webster.py:102): invalid JSON, an integer longer than Python's 4300-digit conversion limit, or nesting past the recursion limit. Such a body never reaches the classification; whether its error becomes the failure line or escapes depends on the decoder and on the exception hierarchy of the `requests` version in use. The model's `Delivered` carries only bodies that decoded.
- File reading and INI parsing by `ConfigParser` (app/merriam_webster.py:47-48): each file is its parsed section map, and a missing file is an empty map. Lower-casing of option names, the `DEFAULT` section fallback and value interpolation belong to the parser and are not part of this model.
- `main`, argument parsing and the path computation (app/merriam_webster.py:127-149), and the warning filters (app/merriam_webster.py:9-14): these are command-line plumbing.
- JSON numbers with a fraction or exponent: `Number` holds whole numbers only, because the printing of Python floats is not modelled.
- Python.PyStr: `str()` of a list or a dict (Python's `repr`) is the runtime parameter `containerStr` and is not defined here. It appears only when `fl` or the first definition is itself a list or an object.
- Python.IsAlphaStr: the Unicode letter table behind `str.isalpha` is the runtime parameter `isAlpha`. The model assumes only that it agrees with the ASCII letters on ASCII characters.
- Repeating a lookup with the same word and the same response gives the same line. Every member here is a pure function, so this needs no lemma of its own.

=== FILE: config.dfy ===
/**
 * Configuration loading of `MerriamWebsterAPI`: the INI files are read in
 * order, later files overriding earlier ones key by key, and construction
 * fails unless section `merriam-webster` ends up with a non-empty `api_key`
 * and a non-empty `base_url`.
 */
module Config {
  import opened Wrappers
  import opened Python

  /** The options of one INI section. */
  type Section = map<string, string>

  /** A parsed INI file, section name to options; a missing file reads as no sections. */
  type Ini = map<string, Section>

  const SectionName := "merriam-webster"
  const ApiKeyOption := "api_key"
  const BaseUrlOption := "base_url"
  const MissingApiKey := "API key is missing in the configuration file."
  const MissingBaseUrl := "Base URL is missing in the configuration file."

  /** The settings a successfully constructed client holds. */
  datatype Settings = Settings(apiKey: string, baseUrl: string)

  /** `config.get(section, option, fallback=None)`. */
  function Get(ini: Ini, section: string, option: string): Option<string> {
    if section in ini && option in ini[section] then Some(ini[section][option]) else None
  }

  /** Reading one more file on top of what has been read so far. */
  function Overlay(below: Ini, above: Ini): (r: Ini)
    ensures r.Keys == below.Keys + above.Keys
    ensures forall s, o :: Get(r, s, o) == if Get(above, s, o).Some? then Get(above, s, o) else Get(below, s, o)
  {
    map s | s in below.Keys + above.Keys ::
      (if s in below then below[s] else map[]) + (if s in above then above[s] else map[])
  }

  /** `config.read(files)`: the files are read one after another. */
  function ReadAll(files: seq<Ini>): Ini
    decreases |files|
  {
    if |files| == 0 then map[] else Overlay(ReadAll(files[..|files| - 1]), files[|files| - 1])
  }

  /** After reading, a section exists exactly when some file has it. */
  lemma {:induction false} ReadAllSections(files: seq<Ini>, section: string)
    ensures section in ReadAll(files) <==> exists i :: 0 <= i < |files| && section in files[i]
    decreases |files|
  {
    if |files| > 0 {
      var init := files[..|files| - 1];
      ReadAllSections(init, section);
      if section in ReadAll(files) && section !in files[|files| - 1] {
        var i :| 0 <= i < |init| && section in init[i];
        assert section in files[i];
      }
      if exists i :: 0 <= i < |files| && section in files[i] {
        var i :| 0 <= i < |files| && section in files[i];
        if i < |files| - 1 {
          assert section in init[i];
        }
      }
    }
  }

  /** File `i` is the last of `files` that sets `option` in `section`. */
  ghost predicate LastSetter(files: seq<Ini>, section: string, option: string, i: int) {
    && 0 <= i < |files|
    && Get(files[i], section, option).Some?
    && forall j :: i < j < |files| ==> Get(files[j], section, option).None?
  }

  /**
   * Last file wins: after reading, an option has the value the last file
   * setting it gave, and is absent when no file sets it.
   */
  lemma {:induction false} ReadAllLastWins(files: seq<Ini>, section: string, option: string)
    ensures forall i :: LastSetter(files, section, option, i) ==>
      Get(ReadAll(files), section, option) == Get(files[i], section, option)
    ensures (forall i :: 0 <= i < |files| ==> Get(files[i], section, option).None?) ==>
      Get(ReadAll(files), section, option).None?
    decreases |files|
  {
    if |files| > 0 {
      var init := files[..|files| - 1];
      ReadAllLastWins(init, section, option);
      forall i | LastSetter(files, section, option, i) && i < |files| - 1
        ensures LastSetter(init, section, option, i)
      {
      }
    }
  }

  /** `_load_config` on the files read in order. */
  function LoadSettings(files: seq<Ini>): (r: Result<Settings, Exception>)
    ensures Get(ReadAll(files), SectionName, ApiKeyOption).GetOr("") == "" ==>
      r == Failure(ValueError(MissingApiKey))
    ensures (Get(ReadAll(files), SectionName, ApiKeyOption).GetOr("") != "" &&
             Get(ReadAll(files), SectionName, BaseUrlOption).GetOr("") == "") ==>
      r == Failure(ValueError(MissingBaseUrl))
    ensures r.Success? <==>
      && Get(ReadAll(files), SectionName, ApiKeyOption).GetOr("") != ""
      && Get(ReadAll(files), SectionName, BaseUrlOption).GetOr("") != ""
    ensures r.Success? ==>
      && r.value.apiKey != ""
      && r.value.baseUrl != ""
      && Get(ReadAll(files), SectionName, ApiKeyOption) == Some(r.value.apiKey)
      && Get(ReadAll(files), SectionName, BaseUrlOption) == Some(r.value.baseUrl)
  {
    var merged := ReadAll(files);
    var apiKey := Get(merged, SectionName, ApiKeyOption);
    if apiKey.None? || apiKey.value == "" then
      Failure(ValueError(MissingApiKey))
    else
      var baseUrl := Get(merged, SectionName, BaseUrlOption);
      if baseUrl.None? || baseUrl.value == "" then
        Failure(ValueError(MissingBaseUrl))
      else
        Success(Settings(apiKey.value, baseUrl.value))
  }

  /** Reading two files is overlaying the second on the first. */
  lemma ReadTwo(config: Ini, secrets: Ini)
    ensures ReadAll([config, secrets]) == Overlay(Overlay(map[], config), secrets)
  {
    assert [config, secrets][..1] == [config];
    assert [config][..0] == [];
    assert ReadAll([config]) == Overlay(ReadAll([]), config);
  }

  /** The value `option` gets from the secrets file, or else from the base file. */
  function Effective(config: Ini, secrets: Ini, option: string): Option<string> {
    var top := Get(secrets, SectionName, option);
    if top.Some? then top else Get(config, SectionName, option)
  }

  /**
   * The constructor reads `conf/config.ini`, then `conf/configsecrets.ini`,
   * and keeps each option's secrets value when there is one.
   */
  function Construct(config: Ini, secrets: Ini): (r: Result<Settings, Exception>)
    ensures r.Success? <==>
      Effective(config, secrets, ApiKeyOption).GetOr("") != "" &&
      Effective(config, secrets, BaseUrlOption).GetOr("") != ""
    ensures Effective(config, secrets, ApiKeyOption).GetOr("") == "" ==>
      r == Failure(ValueError(MissingApiKey))
    ensures (Effective(config, secrets, ApiKeyOption).GetOr("") != "" &&
             Effective(config, secrets, BaseUrlOption).GetOr("") == "") ==>
      r == Failure(ValueError(MissingBaseUrl))
    ensures r.Success? ==>
      Effective(config, secrets, ApiKeyOption) == Some(r.value.apiKey) &&
      Effective(config, secrets, BaseUrlOption) == Some(r.value.baseUrl)
  {
    ReadTwo(config, secrets);
    LoadSettings([config, secrets])
  }

  /**
   * A non-empty key in the secrets file is the key the client uses, whatever
   * the base file says; the base file's key is used only when the secrets
   * file has none.
   */
  lemma SecretsOverride(config: Ini, secrets: Ini)
    ensures Get(secrets, SectionName, ApiKeyOption).Some? && Construct(config, secrets).Success? ==>
      Some(Construct(config, secrets).value.apiKey) == Get(secrets, SectionName, ApiKeyOption)
    ensures Get(secrets, SectionName, ApiKeyOption).None? && Construct(config, secrets).Success? ==>
      Some(Construct(config, secrets).value.apiKey) == Get(config, SectionName, ApiKeyOption)
    ensures Construct(config, secrets).Success? <==>
      && Get(ReadAll([config, secrets]), SectionName, ApiKeyOption).GetOr("") != ""
      && Get(ReadAll([config, secrets]), SectionName, BaseUrlOption).GetOr("") != ""
  {
    var r := Construct(config, secrets);
    if r.Success? {
      assert Effective(config, secrets, ApiKeyOption) == Some(r.value.apiKey);
    }
    ReadTwo(config, secrets);
  }
}

=== FILE: dictionary.dfy ===
/**
 * `MerriamWebsterAPI.fetch_definition`: validate the word, build the request
 * URL, send one GET request, and turn the decoded response into the line
 * the command-line tool prints.
 */
module Dictionary {
  import opened Wrappers
  import opened JsonValue
  import opened Python
  import opened Config

  const InvalidWord := "The word must contain only alphabetic characters."
  const NotFound := "Word not found"
  const FetchError := "Error fetching definition"
  const NoPartOfSpeech := "N/A"
  const NoDefinition := "No definition found"

  /**
   * What the network layer did with the request: it failed (a connection
   * error, a timeout, or a 4xx or 5xx status rejected by `raise_for_status`),
   * or it delivered a body that decoded to a JSON value.
   */
  datatype Transport = TransportFailure | Delivered(body: Json)

  /** What a call returned, or the exception that escaped from it. */
  datatype Outcome = Returned(text: string) | Raised(error: Exception)

  /**
   * The request target, by plain concatenation without escaping: the base
   * URL and `/`, then the word, then `?key=` and the API key.
   */
  function RequestUrl(s: Settings, word: string): (url: string)
    ensures |url| == |s.baseUrl| + 1 + |word| + 5 + |s.apiKey|
    ensures url[..|s.baseUrl| + 1] == s.baseUrl + "/"
    ensures url[|s.baseUrl| + 1..|s.baseUrl| + 1 + |word|] == word
    ensures url[|s.baseUrl| + 1 + |word|..] == "?key=" + s.apiKey
  {
    s.baseUrl + "/" + word + "?key=" + s.apiKey
  }

  /**
   * The printed answer for a dictionary entry: the word, ` (`, the part of
   * speech, `): `, then the definition.
   */
  function Answer(word: string, partOfSpeech: string, definition: string): (line: string)
    ensures |line| == |word| + |partOfSpeech| + |definition| + 5
    ensures line[..|word|] == word
    ensures line[|word|..|word| + 2] == " ("
    ensures line[|word| + 2..|word| + 2 + |partOfSpeech|] == partOfSpeech
    ensures line[|word| + 2 + |partOfSpeech|..|word| + 5 + |partOfSpeech|] == "): "
    ensures line[|line| - |definition|..] == definition
  {
    word + " (" + partOfSpeech + "): " + definition
  }

  /** The body is a non-empty list whose first element is an object. */
  predicate HeadedByEntry(data: Json) {
    data.Array? && |data.items| > 0 && data.items[0].Object?
  }

  /** The `"fl"` value of an entry as the answer prints it. */
  function PartOfSpeech(entry: map<string, Json>, rt: PyRuntime): string {
    PyStr(GetOr(entry, "fl", Str(NoPartOfSpeech)), rt)
  }

  /** Interpreting the decoded body for `word`. */
  function Classify(word: string, data: Json, rt: PyRuntime): (r: Outcome)
    // an empty list, or a list of spelling suggestions
    ensures data.Array? && (|data.items| == 0 || data.items[0].Str?) ==> r == Returned(NotFound)
    // any body that is not a list headed by an entry
    ensures !HeadedByEntry(data) ==> r == Returned(NotFound)
    // an entry without "shortdef" gets the default definition
    ensures HeadedByEntry(data) && "shortdef" !in data.items[0].fields ==>
      r == Returned(Answer(word, PartOfSpeech(data.items[0].fields, rt), NoDefinition))
    // (a consequence of the "shortdef"[0] rule below) a non-empty list prints its first definition
    ensures (HeadedByEntry(data) && "shortdef" in data.items[0].fields &&
             data.items[0].fields["shortdef"].Array? && |data.items[0].fields["shortdef"].items| > 0) ==>
      r == Returned(Answer(word, PartOfSpeech(data.items[0].fields, rt),
                           PyStr(data.items[0].fields["shortdef"].items[0], rt)))
    // otherwise "shortdef"[0] is printed when it exists ...
    ensures (HeadedByEntry(data) && "shortdef" in data.items[0].fields &&
             Subscript0(data.items[0].fields["shortdef"]).Success?) ==>
      r == Returned(Answer(word, PartOfSpeech(data.items[0].fields, rt),
                           PyStr(Subscript0(data.items[0].fields["shortdef"]).value, rt)))
    // ... and the exception of `[0]` escapes when it does not
    ensures (HeadedByEntry(data) && "shortdef" in data.items[0].fields &&
             Subscript0(data.items[0].fields["shortdef"]).Failure?) ==>
      r == Raised(Subscript0(data.items[0].fields["shortdef"]).error)
    // (a consequence of the "shortdef"[0] rule above) an empty list: the index error escapes
    ensures (HeadedByEntry(data) && "shortdef" in data.items[0].fields &&
             data.items[0].fields["shortdef"] == Array([])) ==> r == Raised(IndexError)
    // an exception escapes exactly when "shortdef" is present and has no element 0
    ensures r.Raised? <==>
      HeadedByEntry(data) && "shortdef" in data.items[0].fields &&
      Subscript0(data.items[0].fields["shortdef"]).Failure?
    ensures r.Raised? ==> !r.error.ValueError?
  {
    if data.Array? && (|data.items| == 0 || data.items[0].Str?) then
      Returned(NotFound)
    else if HeadedByEntry(data) then
      var entry := data.items[0].fields;
      match Subscript0(GetOr(entry, "shortdef", Array([Str(NoDefinition)])))
      case Failure(e) => Raised(e)
      case Success(sd) => Returned(Answer(word, PartOfSpeech(entry, rt), PyStr(sd, rt)))
    else
      Returned(NotFound)
  }

  /** `fetch_definition(word)` on a client holding `s`, with `net` standing for the network. */
  function FetchDefinition(s: Settings, word: string, net: string -> Transport, rt: PyRuntime): (r: Outcome)
    ensures !IsAlphaStr(word, rt.isAlpha) ==> r == Raised(ValueError(InvalidWord))
    ensures IsAlphaStr(word, rt.isAlpha) && net(RequestUrl(s, word)).TransportFailure? ==>
      r == Returned(FetchError)
    ensures IsAlphaStr(word, rt.isAlpha) && net(RequestUrl(s, word)).Delivered? ==>
      r == Classify(word, net(RequestUrl(s, word)).body, rt)
  {
    if !IsAlphaStr(word, rt.isAlpha) then
      Raised(ValueError(InvalidWord))
    else
      match net(RequestUrl(s, word))
      case TransportFailure => Returned(FetchError)
      case Delivered(data) => Classify(word, data, rt)
  }

  /**
   * Reads a request target back into the word and the key, given the base
   * URL: the word is the run of letters after the base URL and `/`.
   */
  function SplitUrl(baseUrl: string, url: string, isAlpha: char -> bool): Option<(string, string)> {
    var prefix := baseUrl + "/";
    if |url| < |prefix| || url[..|prefix|] != prefix then None
    else
      var rest := url[|prefix|..];
      var n := LetterRun(rest, isAlpha);
      var tail := rest[n..];
      if n == 0 || |tail| < 5 || tail[..5] != "?key=" then None
      else Some((rest[..n], tail[5..]))
  }

  /** The request target carries exactly the base URL, the word and the key. */
  lemma UrlRoundTrip(s: Settings, word: string, rt: PyRuntime)
    requires Plausible(rt)
    requires IsAlphaStr(word, rt.isAlpha)
    ensures SplitUrl(s.baseUrl, RequestUrl(s, word), rt.isAlpha) == Some((word, s.apiKey))
  {
    var url := RequestUrl(s, word);
    var prefix := s.baseUrl + "/";
    var tail := "?key=" + s.apiKey;
    assert url == prefix + (word + tail);
    assert url[..|prefix|] == prefix;
    assert url[|prefix|..] == word + tail;
    assert !rt.isAlpha('?');
    LetterRunStops(word, tail, rt.isAlpha);
    assert (word + tail)[..|word|] == word;
    assert (word + tail)[|word|..] == tail;
  }

  /** Two valid words never share a request target. */
  lemma UrlInjective(s: Settings, w1: string, w2: string, rt: PyRuntime)
    requires Plausible(rt)
    requires IsAlphaStr(w1, rt.isAlpha) && IsAlphaStr(w2, rt.isAlpha)
    ensures RequestUrl(s, w1) == RequestUrl(s, w2) <==> w1 == w2
  {
    UrlRoundTrip(s, w1, rt);
    UrlRoundTrip(s, w2, rt);
  }

  /** The word an answer line names: its leading run of letters. */
  function AnswerWord(line: string, isAlpha: char -> bool): string {
    line[..LetterRun(line, isAlpha)]
  }

  /** An answer line starts with its word, then ` (`. */
  lemma AnswerNamesWord(word: string, partOfSpeech: string, definition: string, rt: PyRuntime)
    requires Plausible(rt)
    requires IsAlphaStr(word, rt.isAlpha)
    ensures AnswerWord(Answer(word, partOfSpeech, definition), rt.isAlpha) == word
    ensures Answer(word, partOfSpeech, definition)[|word| + 1] == '('
  {
    var line := Answer(word, partOfSpeech, definition);
    var rest := " (" + partOfSpeech + "): " + definition;
    assert line == word + rest;
    assert !rt.isAlpha(' ');
    LetterRunStops(word, rest, rt.isAlpha);
    assert line[..|word|] == word;
  }

  /**
   * An answer line is never one of the two fixed lines: it holds a `(`
   * after its word and a space, and neither fixed line holds one at all.
   */
  lemma AnswerUnambiguous(word: string, partOfSpeech: string, definition: string)
    ensures Answer(word, partOfSpeech, definition) != NotFound
    ensures Answer(word, partOfSpeech, definition) != FetchError
  {
    var line := Answer(word, partOfSpeech, definition);
    assert line[|word| + 1] == '(';
    assert '(' !in NotFound;
    assert '(' !in FetchError;
  }

  /** An invalid word is rejected before the network is consulted. */
  lemma InvalidWordSendsNothing(s: Settings, word: string, net1: string -> Transport,
                                net2: string -> Transport, rt: PyRuntime)
    requires !IsAlphaStr(word, rt.isAlpha)
    ensures FetchDefinition(s, word, net1, rt) == FetchDefinition(s, word, net2, rt)
    ensures FetchDefinition(s, word, net1, rt) == Raised(ValueError(InvalidWord))
  {
  }

  /** For a valid word, only what the network does with the request target matters. */
  lemma OnlyRequestTargetMatters(s: Settings, word: string, net1: string -> Transport,
                                 net2: string -> Transport, rt: PyRuntime)
    requires net1(RequestUrl(s, word)) == net2(RequestUrl(s, word))
    ensures FetchDefinition(s, word, net1, rt) == FetchDefinition(s, word, net2, rt)
  {
  }

  /**
   * The failure line appears exactly when the word is valid and the
   * request failed; the ValueError is raised exactly for invalid words.
   */
  lemma FetchErrorIffTransportFailure(s: Settings, word: string, net: string -> Transport, rt: PyRuntime)
    ensures FetchDefinition(s, word, net, rt) == Returned(FetchError) <==>
      IsAlphaStr(word, rt.isAlpha) && net(RequestUrl(s, word)).TransportFailure?
    ensures FetchDefinition(s, word, net, rt).Raised? && FetchDefinition(s, word, net, rt).error.ValueError? <==>
      !IsAlphaStr(word, rt.isAlpha)
    ensures FetchDefinition(s, word, net, rt) == Raised(ValueError(InvalidWord)) <==> !IsAlphaStr(word, rt.isAlpha)
  {
    if IsAlphaStr(word, rt.isAlpha) && net(RequestUrl(s, word)).Delivered? {
      var data := net(RequestUrl(s, word)).body;
      if HeadedByEntry(data) {
        var entry := data.items[0].fields;
        var sd := Subscript0(GetOr(entry, "shortdef", Array([Str(NoDefinition)])));
        if sd.Success? {
          AnswerUnambiguous(word, PartOfSpeech(entry, rt), PyStr(sd.value, rt));
        }
      }
    }
  }

  /** The only lines `fetch_definition` returns: an answer, or one of the two fixed lines. */
  lemma ReturnedLines(s: Settings, word: string, net: string -> Transport, rt: PyRuntime)
    requires FetchDefinition(s, word, net, rt).Returned?
    ensures var line := FetchDefinition(s, word, net, rt).text;
      line == NotFound || line == FetchError ||
      exists pos, def :: line == Answer(word, pos, def)
  {
    var data := net(RequestUrl(s, word));
    if data.Delivered? && HeadedByEntry(data.body) {
      var entry := data.body.items[0].fields;
      var sd := Subscript0(GetOr(entry, "shortdef", Array([Str(NoDefinition)])));
      if sd.Success? {
        assert FetchDefinition(s, word, net, rt).text == Answer(word, PartOfSpeech(entry, rt), PyStr(sd.value, rt));
      }
    }
  }
}

=== FILE: json.dfy ===
/** The values `response.json()` hands back: Python's decoding of a JSON document. */
module JsonValue {

  /**
   * A decoded JSON value. Objects become dictionaries keyed by strings,
   * arrays become lists. Numbers are whole numbers only (see README).
   */
  datatype Json =
    | Null
    | Bool(b: bool)
    | Number(n: int)
    | Str(s: string)
    | Array(items: seq<Json>)
    | Object(fields: map<string, Json>)

  /** `d.get(key, default)` on a decoded JSON object. */
  function GetOr(fields: map<string, Json>, key: string, default: Json): Json {
    if key in fields then fields[key] else default
  }
}

=== FILE: python.dfy ===
/**
 * The pieces of Python's runtime behaviour that `fetch_definition` relies on:
 * the exceptions it can raise, `v[0]` on decoded JSON, `str(v)` inside an
 * f-string, and `str.isalpha`.
 */
module Python {
  import opened Wrappers
  import opened JsonValue

  /** The exceptions that can escape from the modelled code. */
  datatype Exception =
    | ValueError(message: string)
    | IndexError
    | KeyError
    | TypeError

  /**
   * Runtime facts this model does not define itself: the Unicode letter
   * classification behind `str.isalpha`, and `str()` of a list or dict
   * (Python's `repr`).
   */
  datatype PyRuntime = PyRuntime(isAlpha: char -> bool, containerStr: Json -> string)

  predicate IsAsciiLetter(c: char) {
    'a' <= c <= 'z' || 'A' <= c <= 'Z'
  }

  /**
   * Unicode letter classification agrees with the ASCII letters on the
   * ASCII range: digits, blanks and punctuation are not letters.
   */
  ghost predicate Plausible(rt: PyRuntime) {
    forall c: char :: (c as int) < 128 ==> (rt.isAlpha(c) <==> IsAsciiLetter(c))
  }

  /** Length of the longest prefix of `s` made of letters. */
  function LetterRun(s: string, isAlpha: char -> bool): (n: nat)
    ensures n <= |s|
    ensures forall i :: 0 <= i < n ==> isAlpha(s[i])
    ensures n < |s| ==> !isAlpha(s[n])
    decreases |s|
  {
    if |s| == 0 || !isAlpha(s[0]) then 0 else 1 + LetterRun(s[1..], isAlpha)
  }

  /** A run of letters ends where the first non-letter begins. */
  lemma LetterRunStops(w: string, t: string, isAlpha: char -> bool)
    requires forall i :: 0 <= i < |w| ==> isAlpha(w[i])
    requires |t| > 0 && !isAlpha(t[0])
    ensures LetterRun(w + t, isAlpha) == |w|
  {
    var s := w + t;
    assert forall i :: 0 <= i < |w| ==> s[i] == w[i];
    assert s[|w|] == t[0];
  }

  /**
   * `s.isalpha()`: at least one character, and every character a letter;
   * equivalently, `s` is non-empty and one run of letters.
   */
  predicate IsAlphaStr(s: string, isAlpha: char -> bool): (r: bool)
    ensures r <==> |s| > 0 && LetterRun(s, isAlpha) == |s|
  {
    |s| > 0 && forall i :: 0 <= i < |s| ==> isAlpha(s[i])
  }

  /** `v[0]` on a decoded JSON value. */
  function Subscript0(v: Json): (r: Result<Json, Exception>)
    ensures r.Success? <==> (v.Array? && |v.items| > 0) || (v.Str? && |v.s| > 0)
    ensures r.Success? && v.Array? ==> r.value == v.items[0]
    ensures r.Success? && v.Str? ==> r.value == Str([v.s[0]])
    ensures r.Failure? && (v.Array? || v.Str?) ==> r.error == IndexError
    ensures v.Object? ==> r == Failure(KeyError)
    ensures !(v.Array? || v.Str? || v.Object?) ==> r == Failure(TypeError)
  {
    match v
    case Array(items) => if |items| == 0 then Failure(IndexError) else Success(items[0])
    // indexing a str yields the one-character string
    case Str(s) => if |s| == 0 then Failure(IndexError) else Success(Str([s[0]]))
    // a decoded object's keys are all strings, so the integer key 0 is never present
    case Object(_) => Failure(KeyError)
    case _ => Failure(TypeError)
  }

  predicate IsDigit(c: char) {
    '0' <= c <= '9'
  }

  function DigitChar(d: int): char
    requires 0 <= d < 10
  {
    (d + 48) as char
  }

  function DigitValue(c: char): nat
    requires IsDigit(c)
  {
    c as int - 48
  }

  /** Decimal notation of a natural number, without leading zeros. */
  function NatToDecimal(n: nat): (s: string)
    ensures |s| > 0
    ensures forall i :: 0 <= i < |s| ==> IsDigit(s[i])
    ensures n > 0 ==> s[0] != '0'
    decreases n
  {
    if n < 10 then [DigitChar(n)] else NatToDecimal(n / 10) + [DigitChar(n % 10)]
  }

  /** The number a string of decimal digits denotes. */
  function DecimalValue(s: string): nat
    requires forall i :: 0 <= i < |s| ==> IsDigit(s[i])
  {
    if |s| == 0 then 0 else DecimalValue(s[..|s| - 1]) * 10 + DigitValue(s[|s| - 1])
  }

  lemma {:induction false} DecimalRoundTrip(n: nat)
    ensures DecimalValue(NatToDecimal(n)) == n
    decreases n
  {
    if n >= 10 {
      var s := NatToDecimal(n / 10);
      DecimalRoundTrip(n / 10);
      assert (s + [DigitChar(n % 10)])[..|s|] == s;
    }
  }

  /** `str(n)` for a Python int: a minus sign exactly for negatives, then decimal digits without leading zeros. */
  function IntToStr(n: int): (s: string)
    ensures |s| > 0 && (s[0] == '-' <==> n < 0)
    ensures n < 0 ==> |s| > 1 && forall i :: 1 <= i < |s| ==> IsDigit(s[i])
    ensures n >= 0 ==> forall i :: 0 <= i < |s| ==> IsDigit(s[i])
    ensures n < 0 ==> s[1] != '0'
    ensures n > 0 ==> s[0] != '0'
    ensures n == 0 ==> s == "0"
  {
    if n < 0 then "-" + NatToDecimal(-n) else NatToDecimal(n)
  }

  /** Reads back a decimal integer with an optional minus sign. */
  function DecimalToInt(s: string): Option<int> {
    if |s| > 1 && s[0] == '-' && forall i :: 1 <= i < |s| ==> IsDigit(s[i]) then
      var magnitude: int := DecimalValue(s[1..]);
      Some(-magnitude)
    else if |s| > 0 && forall i :: 0 <= i < |s| ==> IsDigit(s[i]) then
      Some(DecimalValue(s))
    else
      None
  }

  /** The decimal form of an int determines it: reading it back gives the int. */
  lemma IntStrRoundTrip(n: int)
    ensures DecimalToInt(IntToStr(n)) == Some(n)
  {
    if n < 0 {
      var d := NatToDecimal(-n);
      DecimalRoundTrip(-n);
      assert ("-" + d)[1..] == d;
      assert !IsDigit('-');
    } else {
      DecimalRoundTrip(n);
    }
  }

  /**
   * `str(v)`, as an f-string applies it to a decoded JSON value: a string
   * prints as itself, `null` as `None`, and an integer as decimal text that
   * reads back to it.
   */
  function PyStr(v: Json, rt: PyRuntime): (r: string)
    ensures v.Str? ==> r == v.s
    ensures v.Null? ==> r == "None"
    ensures v.Bool? ==> r == (if v.b then "True" else "False")
    ensures v.Number? ==> r == IntToStr(v.n) && DecimalToInt(r) == Some(v.n)
    ensures (v.Array? || v.Object?) ==> r == rt.containerStr(v)
  {
    match v
    case Null => "None"
    case Bool(b) => if b then "True" else "False"
    case Number(n) => IntStrRoundTrip(n); IntToStr(n)
    case Str(s) => s
    case _ => rt.containerStr(v)
  }
}

=== FILE: scenarios.dfy ===
/**
 * The test file's expectations, replayed as instances of the rules with
 * hand-built response bodies, plus the edge cases of the entry format.
 */
module Scenarios {
  import opened JsonValue
  import opened Python
  import opened Config
  import opened Dictionary
  import opened Wrappers

  const HospitalDefinition := "a charitable institution for the needy, aged, infirm, or young"

  /** A body shaped like the service's answer for a known word. */
  function EntryBody(fields: map<string, Json>): Json {
    Array([Object(fields)])
  }

  /** Every request is answered with `body`. */
  function Always(body: Json): string -> Transport {
    _ => Delivered(body)
  }

  /** A word spelt with ASCII letters passes `str.isalpha`. */
  lemma AsciiWordIsAlpha(w: string, rt: PyRuntime)
    requires Plausible(rt)
    requires |w| > 0 && forall i :: 0 <= i < |w| ==> IsAsciiLetter(w[i])
    ensures IsAlphaStr(w, rt.isAlpha)
  {
    forall i | 0 <= i < |w|
      ensures rt.isAlpha(w[i])
    {
      assert (w[i] as int) < 128;
    }
  }

  /** A known word: its part of speech and first short definition are printed. */
  lemma KnownWord(s: Settings, rt: PyRuntime)
    requires Plausible(rt)
    ensures FetchDefinition(s, "hospital",
              Always(EntryBody(map["fl" := Str("noun"), "shortdef" := Array([Str(HospitalDefinition)])])), rt)
            == Returned("hospital (noun): " + HospitalDefinition)
  {
    AsciiWordIsAlpha("hospital", rt);
    HospitalEntry(rt);
  }

  lemma HospitalEntry(rt: PyRuntime)
    ensures Classify("hospital", EntryBody(map["fl" := Str("noun"), "shortdef" := Array([Str(HospitalDefinition)])]), rt)
            == Returned("hospital (noun): " + HospitalDefinition)
  {
    var entry := map["fl" := Str("noun"), "shortdef" := Array([Str(HospitalDefinition)])];
    assert PartOfSpeech(entry, rt) == "noun";
    assert Subscript0(entry["shortdef"]) == Success(Str(HospitalDefinition));
    assert Answer("hospital", "noun", HospitalDefinition) == "hospital (noun): " + HospitalDefinition;
  }

  /** An unknown word: the service answers with spelling suggestions. */
  lemma UnknownWord(s: Settings, rt: PyRuntime)
    requires Plausible(rt)
    ensures FetchDefinition(s, "nonexistentword",
              Always(Array([Str("nonexistent"), Str("unexistent")])), rt)
            == Returned(NotFound)
  {
    AsciiWordIsAlpha("nonexistentword", rt);
  }

  /** Digits are refused, whatever the network would have said. */
  lemma DigitsRefused(s: Settings, net: string -> Transport, rt: PyRuntime)
    requires Plausible(rt)
    ensures FetchDefinition(s, "12345", net, rt) == Raised(ValueError(InvalidWord))
  {
    assert !rt.isAlpha("12345"[0]);
  }

  /** The empty word is refused. */
  lemma EmptyRefused(s: Settings, net: string -> Transport, rt: PyRuntime)
    ensures FetchDefinition(s, "", net, rt) == Raised(ValueError(InvalidWord))
  {
  }

  /** A failed request prints the failure line and raises nothing. */
  lemma RequestFails(s: Settings, rt: PyRuntime)
    requires Plausible(rt)
    ensures FetchDefinition(s, "hospital", _ => TransportFailure, rt) == Returned(FetchError)
  {
    AsciiWordIsAlpha("hospital", rt);
  }

  /** Missing fields fall back to their defaults. */
  lemma MissingFieldsDefault(rt: PyRuntime)
    ensures Classify("hospital", EntryBody(map[]), rt) == Returned("hospital (N/A): " + NoDefinition)
  {
    assert PartOfSpeech(map[], rt) == NoPartOfSpeech;
    assert Answer("hospital", NoPartOfSpeech, NoDefinition) == "hospital (N/A): " + NoDefinition;
  }

  /** An empty `shortdef` list is not defaulted: the index error escapes. */
  lemma EmptyShortdefRaises(rt: PyRuntime)
    ensures Classify("hospital", EntryBody(map["fl" := Str("noun"), "shortdef" := Array([])]), rt)
            == Raised(IndexError)
  {
  }

  /** A `shortdef` string is indexed, so only its first character is printed. */
  lemma StringShortdefFirstCharacter(rt: PyRuntime)
    ensures Classify("hospital", EntryBody(map["fl" := Str("noun"), "shortdef" := Str("care")]), rt)
            == Returned("hospital (noun): c")
  {
    assert Answer("hospital", "noun", "c") == "hospital (noun): c";
  }

  /** A numeric `fl` is printed in decimal. */
  lemma NumericPartOfSpeech(rt: PyRuntime)
    ensures Classify("hospital", EntryBody(map["fl" := Number(-42)]), rt)
            == Returned("hospital (-42): " + NoDefinition)
  {
    assert NatToDecimal(4) == "4";
    assert NatToDecimal(42) == "42";
    assert PartOfSpeech(map["fl" := Number(-42)], rt) == "-42";
    assert Answer("hospital", "-42", NoDefinition) == "hospital (-42): " + NoDefinition;
  }

  /** A body that is an object, not a list, means no entry. */
  lemma ObjectBodyNotFound(rt: PyRuntime)
    ensures Classify("hospital", Object(map["fl" := Str("noun")]), rt) == Returned(NotFound)
  {
  }

  /** The secrets file's key overrides the base file's. */
  lemma SecretsKeyWins()
    ensures Construct(
              map[SectionName := map[ApiKeyOption := "public", BaseUrlOption := "https://example.org"]],
              map[SectionName := map[ApiKeyOption := "secret"]])
            == Success(Settings("secret", "https://example.org"))
  {
    var config := map[SectionName := map[ApiKeyOption := "public", BaseUrlOption := "https://example.org"]];
    var secrets := map[SectionName := map[ApiKeyOption := "secret"]];
    ReadTwo(config, secrets);
  }

  /** An empty key is as bad as a missing one, and is reported before the base URL. */
  lemma EmptyKeyReportedFirst()
    ensures Construct(map[SectionName := map[ApiKeyOption := ""]], map[]) == Failure(ValueError(MissingApiKey))
  {
    ReadTwo(map[SectionName := map[ApiKeyOption := ""]], map[]);
  }

}

=== FILE: wrappers.dfy ===
/** `Option` and `Result`, shared by the other modules. */
module Wrappers {

  /** A value that may be absent, as Python's `None` fallback. */
  datatype Option<+T> = None | Some(value: T) {

    /** The wrapped value, or `default` when absent. */
    function GetOr(default: T): T {
      match this
      case Some(v) => v
      case None => default
    }
  }

  /** A computation that either produced a value or raised an error. */
  datatype Result<+R, +E> = Success(value: R) | Failure(error: E)
}
